=== FILE: README.md ===
# RigelLib base utilities in Dafny

A model of the self-contained pure logic in RigelLib's `base` library:

- **Pixel buffer** (`Images`, `Colors`): an RGBA `Image` is a row-major
  buffer in which pixel (x, y) sits at offset `x + y * width`. The model
  covers its constructors, `flipped`, `withPremultipliedAlpha`, both
  `insertImage` overloads and `extractSubImage`. A `Color` has four byte
  channels and an integer-truncating `asPremultiplied`.
- **String helpers** (`Strings`): `split`, `startsWith`, the trim family
  with its default set `"\n\r\t "`, ASCII case mapping, `utf8len` and
  `utf8lenToBytes`. Strings are byte strings. A continuation byte is one of
  the form `10xxxxxx`, as in section 3 of RFC 3629.
- **Integer geometry** (`Spatial`): `Vec2`, `Size` and `Rect<int>`.
  Rectangle corners are inclusive, so `right = x + w - 1`. The model covers
  `intersects`, translation, `makeRect`, equality and `asVec`/`asSize`.
  Empty rectangles, such as the default one, are ordinary values. For them
  `intersects` compares the same corners and can be true although no cell
  is shared (`Spatial.IntersectsWithoutSharedCell`).
- **Little-endian stream reader** (`LeStream`): a cursor and a fixed end
  over an immutable byte sequence. It has u8/u16/u24/u32 reads, signed
  reads, peeks, `skipBytes`, `numBytesLeft`, `hasData` and
  `readFixedSizeString`.

The model is functional. Each operation is a pure function. The member
functions that change their object (`insertImage`, the reader's reads and
skips) return the new value instead. A thrown exception is the `Err` arm of
`Results.Result`. A failing call produces no new state, so the caller's old
value is what remains. For `insertImage` this follows from the code, where
the bounds check comes before every write, and `Images.ReceiverAfterInsert`
states it. For the stream reader, the header says only that reads throw.
That its cursor is unchanged after a failure is this model's choice, which
the header does not decide. `Images.Valid` is the class invariant
`|pixels| == width * height`. The image constructors assume it and never
check it, so every image operation requires it.

The stream reader is modelled from its declaration and doc comments. Its
implementation file is not part of this model. The header promises:
- reads are little-endian;
- a read fails when fewer bytes remain than its width;
- 24-bit words are stored as 3 bytes;
- peeks restore the cursor;
- the end is fixed.

The header gives the signed reads only their result types. Two's
complement, and sign extension from bit 23 for `readS24`, are this model's
choices, which the header does not decide. They are listed under
"Left out".

## Model

| member | source | states |
|---|---|---|
| Colors.Transparent | include/rigel/base/color.hpp:57-60 | the default colour has all four channels 0 |
| Colors.Rgba | include/rigel/base/color.hpp:29-39 | the four-argument constructor stores each channel |
| Colors.RgbaDefaultAlpha | include/rigel/base/color.hpp:29-39 | omitting alpha gives 255, so the colour is never the default one |
| Colors.Equal | include/rigel/base/color.hpp:41-44 | `==` holds iff all four channels agree, which is value equality |
| Colors.NotEqual | include/rigel/base/color.hpp:46-49 | `!=` holds iff the colours differ and is the negation of `==` |
| Colors.AsPremultiplied | include/rigel/base/color.hpp:51-55 | alpha is kept; each of r, g, b is the floor of `c * a / 255` (stated by the two bounds of floor division); no channel grows |
| Colors.PremultipliedOpaque | include/rigel/base/color.hpp:51-55 | premultiplying with alpha 255 is the identity |
| Colors.PremultipliedTransparent | include/rigel/base/color.hpp:51-55 | premultiplying with alpha 0 gives (0, 0, 0, 0) |
| Colors.PremultipliedIdempotent | include/rigel/base/color.hpp:51-55 | with alpha 0 or 255, premultiplying twice equals premultiplying once |
| Colors.PremultipliedTwiceDiffers | include/rigel/base/color.hpp:51-55 | for every alpha strictly between 0 and 255, premultiplying white twice differs from premultiplying it once |
| Images.FromPixels | src/base/image.cpp:28-47 | the constructor keeps the buffer and dimensions, and the result satisfies the invariant when the caller supplies `width * height` pixels |
| Images.Blank | src/base/image.cpp:50-53 | `Image(w, h)` holds exactly `w * h` pixels, every one (0, 0, 0, 0) |
| Images.Flipped | src/base/image.cpp:56-73 | same dimensions; output pixel (x, y) is input pixel (x, h - 1 - y) |
| Images.FlippedTwice | src/base/image.cpp:56-73 | flipping twice gives back the original image |
| Images.WithPremultipliedAlpha | src/base/image.cpp:76-87 | same dimensions; every pixel is the premultiplied form of the pixel at the same position |
| Images.PremultipliedOpaqueImage | src/base/image.cpp:76-87 | an image whose pixels are all opaque is unchanged |
| Images.PremultipliedClearsTransparent | src/base/image.cpp:76-87 | every pixel with alpha 0 becomes (0, 0, 0, 0) |
| Images.InferredHeight | src/base/image.cpp:102 | the inferred height is the number of whole rows: `h * w <= |pixels| < (h + 1) * w` |
| Images.InsertImage | src/base/image.cpp:96-117 | fails with "doesn't fit" iff `x + sourceWidth > width` or `y + inferredHeight > height`. On success the dimensions are kept. Each target pixel in the block gets the source pixel at the same relative offset. Every pixel outside the block is unchanged. Source pixels past the last whole row are never used |
| Images.ReceiverAfterInsert | src/base/image.cpp:102-106 | the check comes before any write, so a failed insert leaves the receiver exactly as it was |
| Images.InsertImageFrom | src/base/image.cpp:90-93 | the `Image` overload is the buffer overload applied to the source's pixels and width. For a well-formed source it fails iff the source's width or height overruns the target. Each source pixel (c, r) lands at (x + c, y + r) |
| Images.InsertCoveringImage | src/base/image.cpp:90-117 | inserting a same-sized image at the origin replaces the whole target |
| Images.ExtractSubImage | src/base/image.cpp:120-143 | fails with "out of bounds" iff `x + w > width` or `y + h > height`. Otherwise the result is a `w x h` image whose pixel (c, r) is source pixel (x + c, y + r) |
| Images.ExtractWhole | src/base/image.cpp:120-143 | extracting (0, 0, width, height) returns an equal image |
| Images.ExtractAfterInsert | src/base/image.cpp:96-143 | after a successful insert, extracting the same offset and size gives exactly the inserted whole rows |
| Strings.Split | src/base/string_utils.cpp:26-42 | the delimiter must be below 127. There is one more piece than occurrences of the delimiter, no piece contains it, and joining the pieces with it gives back the input |
| Strings.SplitEmpty | src/base/string_utils.cpp:26-42 | splitting the empty string gives one empty piece |
| Strings.StartsWith | src/base/string_utils.cpp:44-48 | true iff the prefix is no longer than the input and equals the input's first `|prefix|` characters |
| Strings.StartsWithConcat | src/base/string_utils.cpp:44-48 | `p + s` starts with `p`, and every string starts with the empty prefix |
| Strings.FindFirstNotOf | src/base/string_utils.cpp:52 | the first position outside `what`; every earlier character, or every character when the result is `npos`, is in `what` |
| Strings.FindLastNotOf | src/base/string_utils.cpp:65 | the last position outside `what`; every later character, or every character when the result is `npos`, is in `what` |
| Strings.TrimLeft | src/base/string_utils.cpp:50-61 | the result is a suffix of the input and is empty or starts outside `what`. Every dropped character is in `what`, so the longest such prefix is dropped |
| Strings.TrimRight | src/base/string_utils.cpp:63-74 | the result is a prefix of the input and is empty or ends outside `what`. Every dropped character is in `what`. For `npos` the wrapped `npos + 1 == 0` clears the string |
| Strings.Trim | src/base/string_utils.cpp:76-87 | the result is a slice `input[a..b]` that is empty or begins and ends outside `what`, and every character dropped before `a` or after `b` is in `what` |
| Strings.TrimAllWhat | src/base/string_utils.cpp:50-87 | an input made only of `what` characters trims to the empty string on either side |
| Strings.TrimmedIsFixed | src/base/string_utils.cpp:50-67 | a string that starts and ends outside `what` is left alone by both one-sided trims |
| Strings.TrimLeftAt | src/base/string_utils.cpp:50-54 | `trimLeft` keeps exactly the suffix that starts at the first character outside `what` |
| Strings.TrimRightAt | src/base/string_utils.cpp:63-67 | `trimRight` keeps exactly the prefix that ends at the last character outside `what` |
| Strings.TrimLeftOfSlice | src/base/string_utils.cpp:50-54 | `trimLeft` of a prefix that keeps the first non-`what` character returns the slice starting there |
| Strings.TrimRightOfSlice | src/base/string_utils.cpp:63-67 | `trimRight` of a suffix that keeps the last non-`what` character returns the slice ending there |
| Strings.TrimSidesCommute | src/base/string_utils.cpp:76-80 | `trimLeft` after `trimRight` equals `trimRight` after `trimLeft` |
| Strings.TrimIdempotent | src/base/string_utils.cpp:76-87 | trimming twice gives the same result as trimming once |
| Strings.ToUppercase | src/base/string_utils.cpp:89-97 | length is kept; each lower-case letter is raised by 32, every other character is kept, and no lower-case letter remains |
| Strings.ToLowercase | src/base/string_utils.cpp:99-107 | length is kept; each upper-case letter is lowered by 32, every other character is kept, and no upper-case letter remains |
| Strings.CaseMappingRoundTrip | src/base/string_utils.cpp:89-107 | upper-casing is idempotent, and lowering an upper-cased string equals lowering the original |
| Strings.ContinuationRange | src/base/string_utils.cpp:113 | the test `(ch & 0xC0) == 0x80` selects exactly the bytes 0x80 to 0xBF |
| Strings.Utf8Len | src/base/string_utils.cpp:109-116 | the count of non-continuation bytes never exceeds the byte length |
| Strings.Utf8LenAppend | src/base/string_utils.cpp:109-116 | the count is additive over concatenation |
| Strings.Utf8LenAscii | src/base/string_utils.cpp:109-116 | ASCII text counts one per byte |
| Strings.SkipContinuation | src/base/string_utils.cpp:126-128 | the inner loop stops at the end or at a non-continuation byte, and adds no code point |
| Strings.Utf8LenToBytes | src/base/string_utils.cpp:118-132 | returns 0 when `utf8len == 0` or the input is empty. Otherwise it returns an offset in `[1, |s|]` that is `|s|` or a non-continuation byte, and that covers `min(utf8len, available)` code points |
| Spatial.AddVec | include/rigel/base/spatial_types.hpp:143-147 | adding leaves the left operand unchanged exactly when the right one is (0, 0) |
| Spatial.SubVec | include/rigel/base/spatial_types.hpp:150-154 | the difference is (0, 0) exactly when the operands are equal |
| Spatial.AddSize | include/rigel/base/spatial_types.hpp:189-193 | adding leaves the left size unchanged exactly when the right one is (0, 0) |
| Spatial.SubSize | include/rigel/base/spatial_types.hpp:196-200 | the difference is (0, 0) exactly when the sizes are equal |
| Spatial.VecGroup | include/rigel/base/spatial_types.hpp:143-154 | componentwise `+`/`-` on points is commutative and associative, with the default (0, 0) neutral and `-` undoing `+` |
| Spatial.SizeGroup | include/rigel/base/spatial_types.hpp:189-200 | the same laws for sizes |
| Spatial.AddAssignVec | include/rigel/base/spatial_types.hpp:171-177 | `+=` yields the same value as `+` |
| Spatial.SubAssignVec | include/rigel/base/spatial_types.hpp:180-186 | `-=` yields the same value as `-` |
| Spatial.AddAssignSize | include/rigel/base/spatial_types.hpp:211-217 | `+=` on sizes yields the same value as `+` |
| Spatial.SubAssignSize | include/rigel/base/spatial_types.hpp:220-226 | `-=` on sizes yields the same value as `-` |
| Spatial.VecEqual | include/rigel/base/spatial_types.hpp:41-44 | point `==` is value equality |
| Spatial.VecNotEqual | include/rigel/base/spatial_types.hpp:46 | point `!=` holds iff the points differ |
| Spatial.SizeEqual | include/rigel/base/spatial_types.hpp:74-77 | size `==` is value equality |
| Spatial.SizeNotEqual | include/rigel/base/spatial_types.hpp:79 | size `!=` holds iff the sizes differ |
| Spatial.RectEqual | include/rigel/base/spatial_types.hpp:238-242 | rectangle `==` (comparing `topLeft` and `size`) is value equality |
| Spatial.RectNotEqual | include/rigel/base/spatial_types.hpp:245-249 | rectangle `!=` is its negation |
| Spatial.AsVec | include/rigel/base/spatial_types.hpp:252-256 | `asSize` turns the result back into the size it came from |
| Spatial.AsVecAsSizeInverse | include/rigel/base/spatial_types.hpp:252-263 | `asVec` and `asSize` are mutual inverses |
| Spatial.BottomLeft | include/rigel/base/spatial_types.hpp:102-106 | the bottom-left corner is in the left column, `height - 1` rows below the top; `InclusiveCorners` gives `(x, y + h - 1)` for every rectangle |
| Spatial.BottomRight | include/rigel/base/spatial_types.hpp:108-111 | the bottom-right corner is in the bottom row, `width - 1` columns right of the left edge |
| Spatial.Top | include/rigel/base/spatial_types.hpp:113 | `top()` is the smallest row any covered cell has, and a non-empty rectangle covers a cell on it; `InclusiveCorners` gives `top() == y` for every rectangle |
| Spatial.Bottom | include/rigel/base/spatial_types.hpp:115 | `bottom()` is the largest row any covered cell has, and a non-empty rectangle covers a cell on it |
| Spatial.Left | include/rigel/base/spatial_types.hpp:117 | `left()` is the smallest column any covered cell has, and a non-empty rectangle covers a cell on it; `InclusiveCorners` gives `left() == x` for every rectangle |
| Spatial.Right | include/rigel/base/spatial_types.hpp:119 | `right()` is the largest column any covered cell has, and a non-empty rectangle covers a cell on it |
| Spatial.InclusiveCorners | include/rigel/base/spatial_types.hpp:102-119 | for every rectangle, empty ones included: `top = y`, `left = x`, `right = x + w - 1`, `bottom = y + h - 1`, `bottomLeft = (left, bottom)`, `bottomRight = (right, bottom)` |
| Spatial.Intersects | include/rigel/base/spatial_types.hpp:121-125 | for rectangles of at least one cell, `intersects` holds iff some cell lies in both |
| Spatial.IntersectsWithoutSharedCell | include/rigel/base/spatial_types.hpp:121-125 | with an empty rectangle the comparisons can succeed without a shared cell: a 0 x 1 rectangle at (0, 0) intersects a 10 x 1 rectangle at (-5, 0) |
| Spatial.IntersectsSymmetric | include/rigel/base/spatial_types.hpp:121-125 | `intersects` is symmetric and reflexive for `w, h >= 1` |
| Spatial.IntersectsExamples | test/test_rectangle.cpp:29-39 | the eight checks of the rectangle intersection test |
| Spatial.Translate | include/rigel/base/spatial_types.hpp:229-235 | `rect + v` keeps the size and moves the top-left corner by exactly `v` |
| Spatial.TranslatePreservesIntersects | include/rigel/base/spatial_types.hpp:229-235 | moving both rectangles by the same vector does not change `intersects` |
| Spatial.MakeRect | include/rigel/base/spatial_types.hpp:135-140 | the top-left corner is kept, the size is `br - tl`, and so `bottomRight()` is `br - (1, 1)` rather than `br` |
| LeStream.FromBuffer | include/rigel/base/byte_buffer.hpp:52 | a reader over a whole buffer starts at 0 with every byte left |
| LeStream.FromRange | include/rigel/base/byte_buffer.hpp:53 | a reader over the given bytes with end `end` starts at `begin` with `end - begin` bytes left |
| LeStream.NumBytesLeft | include/rigel/base/byte_buffer.hpp:79 | the cursor plus the bytes left is the fixed end |
| LeStream.HasData | include/rigel/base/byte_buffer.hpp:78 | true iff bytes are left |
| LeStream.LeValueOfBytes | include/rigel/base/byte_buffer.hpp:45-46 | decoding the little-endian encoding of `v` gives `v` |
| LeStream.LeBytesOfValue | include/rigel/base/byte_buffer.hpp:45-46 | encoding a decoded byte string at the same width gives back the bytes |
| LeStream.TwosComplement | include/rigel/base/byte_buffer.hpp:61-65 | the signed result lies in the signed range and equals the unsigned value modulo `2^bits` |
| LeStream.Take | include/rigel/base/byte_buffer.hpp:47 | fails iff fewer than `count` bytes are left; otherwise yields the next `count` bytes and advances only the cursor |
| LeStream.ReadUnsigned | include/rigel/base/byte_buffer.hpp:45-59 | an n-byte read fails iff fewer than n bytes are left. Otherwise it returns a value below `256^n` and advances the cursor by n |
| LeStream.ReadU8 | include/rigel/base/byte_buffer.hpp:55 | fails iff no byte is left; otherwise returns the byte at the cursor and advances by 1 |
| LeStream.ReadU16 | include/rigel/base/byte_buffer.hpp:56 | fails iff fewer than 2 bytes are left; otherwise returns `b0 + 256 * b1` and advances by 2 |
| LeStream.ReadU24 | include/rigel/base/byte_buffer.hpp:57-58 | fails iff fewer than 3 bytes are left; otherwise returns `b0 + 2^8 b1 + 2^16 b2` (below 2^24) as a 32-bit value and advances by 3 |
| LeStream.ReadU32 | include/rigel/base/byte_buffer.hpp:59 | fails iff fewer than 4 bytes are left; otherwise returns `b0 + 2^8 b1 + 2^16 b2 + 2^24 b3` and advances by 4 |
| LeStream.ReadS8 | include/rigel/base/byte_buffer.hpp:61 | same failure and cursor as `readU8`; the value is the int8 congruent to it modulo 2^8 |
| LeStream.ReadS16 | include/rigel/base/byte_buffer.hpp:62 | same failure and cursor as `readU16`; the value is the int16 congruent to it modulo 2^16 |
| LeStream.ReadS24 | include/rigel/base/byte_buffer.hpp:63-64 | same failure and cursor as `readU24`; the value lies in the 24-bit signed range and is congruent to it modulo 2^24 |
| LeStream.ReadS32 | include/rigel/base/byte_buffer.hpp:65 | same failure and cursor as `readU32`; the value is the int32 congruent to it modulo 2^32 |
| LeStream.PreservingCursor | include/rigel/base/byte_buffer.hpp:83-84 | runs a read and hands back the reader it was given, with the read's value |
| LeStream.PeekU8 | include/rigel/base/byte_buffer.hpp:67 | fails like `readU8`; otherwise returns its value with the cursor preserved |
| LeStream.PeekU16 | include/rigel/base/byte_buffer.hpp:68 | fails like `readU16`; otherwise returns its value with the cursor preserved |
| LeStream.PeekU24 | include/rigel/base/byte_buffer.hpp:69 | fails like `readU24`; otherwise returns its value with the cursor preserved |
| LeStream.PeekU32 | include/rigel/base/byte_buffer.hpp:70 | fails like `readU32`; otherwise returns its value with the cursor preserved |
| LeStream.PeekS8 | include/rigel/base/byte_buffer.hpp:72 | fails like `readS8`; otherwise returns its value with the cursor preserved |
| LeStream.PeekS16 | include/rigel/base/byte_buffer.hpp:73 | fails like `readS16`; otherwise returns its value with the cursor preserved |
| LeStream.PeekS24 | include/rigel/base/byte_buffer.hpp:74 | fails like `readS24`; otherwise returns its value with the cursor preserved |
| LeStream.PeekS32 | include/rigel/base/byte_buffer.hpp:75 | fails like `readS32`; otherwise returns its value with the cursor preserved |
| LeStream.SkipBytes | include/rigel/base/byte_buffer.hpp:77 | fails iff fewer than `count` bytes are left; otherwise the bytes left drop by exactly `count` and only the cursor moves |
| LeStream.ReadFixedSizeString | include/rigel/base/byte_buffer.hpp:91 | fails iff fewer than `len` bytes are left; otherwise returns exactly the next `len` bytes as text and advances by `len` |
| LeStream.ReadConsumesWidth | include/rigel/base/byte_buffer.hpp:55-59 | a successful read lowers `numBytesLeft` by its width: 1, 2, 3 or 4 |
| LeStream.PeekThenRead | include/rigel/base/byte_buffer.hpp:67-75 | `peekU32` then `readU32` returns the same value twice and moves the cursor by exactly 4 |
| LeStream.ReadU32OfEncoding | include/rigel/base/byte_buffer.hpp:45-59 | reading a value written least significant byte first gives it back |
| LeStream.ExampleReadU32 | include/rigel/base/byte_buffer.hpp:59 | bytes [1, 2, 3, 4] read as 0x04030201 and leave nothing |
| LeStream.ExampleSigned8 | include/rigel/base/byte_buffer.hpp:55-61 | byte 0xFF reads as 255 unsigned and -1 signed |
| LeStream.ExampleSigned24 | include/rigel/base/byte_buffer.hpp:63-64 | bytes FE FF FF read as 0xFFFFFE unsigned and -2 signed |
| LeStream.ExampleShort | include/rigel/base/byte_buffer.hpp:47 | a 16-bit read from one byte fails |
| LeStream.ExampleString | include/rigel/base/byte_buffer.hpp:91 | the five bytes of "hello" read back as that text and empty the reader |

## Left out

- Images.FromPixels: the constructors never compare the buffer length with `width * height`. The model requires the match instead of modelling a mismatched image, of which a too-short buffer makes later reads index out of range and a too-long one is silently truncated to its first `width * height` pixels by `flipped` and `withPremultipliedAlpha`.
- Images.InsertImage: requires `sourceWidth > 0`, because the source divides by it without a check. It also requires a well-formed receiver.
- Images.InsertImage: a source buffer that aliases the receiver's own pixels (`img.insertImage(x, y, img.pixelData(), w)`) is not modelled. The buffer is taken by `const` reference and read while `mPixels` is written, so the C++ re-reads pixels it has already overwritten. For a 3 x 1 image `[A, B, C]` inserted into itself at (1, 0) with width 2, the C++ gives `[A, A, A]` and the model gives `[A, A, B]`. The model treats the source buffer as a separate value. The `Image` overload is unaffected, because a self-insert only fits at (0, 0) with equal size.
- Images.InsertImageFrom: requires a non-zero source width, for the same reason.
- `size_t` overflow is not modelled. Sizes and offsets are unbounded naturals, so a sum such as `x + sourceWidth` that wraps in the source does not wrap here. The geometry types use unbounded integers in place of 32-bit `int` for the same reason.
- The in-place (`std::string&`) and `string_view` overloads of the trim family are one function here. A value model has no separate in-place form, and both overloads compute the same string.
- Strings.Split: requires `delimiter < 127`, following the source's assertion and its message. With a signed `char`, the assertion also admits bytes from 128 upwards, read as negative values.
- Strings.ToUppercase: models the "C" locale: only ASCII letters change. Other locales, and the undefined behaviour of `std::toupper` on a negative `char`, are not modelled. The same holds for Strings.ToLowercase.
- Strings.TrimLeft: `what` is a `const char*`, so the C++ sees only the characters before its first NUL. The model types `what` as `CStr`, a string without NUL, which is exactly what such a pointer denotes. A set with an embedded NUL has no C++ counterpart and is not modelled. The same holds for Strings.TrimRight, Strings.Trim, Strings.FindFirstNotOf, Strings.FindLastNotOf and the trim lemmas.
- `Rect::containsPoint` is not modelled. It depends on `inRange` from `math_utils.hpp`, which is not part of this model. `Spatial.Covers` is this model's own definition of a rectangle's cells.
- Floating-point and mixed-type geometry are not modelled: `Vec2f`, `SizeF`, `cast<>` and scalar `*` and `/`.
- The stream reader's implementation file is not part of this model, so the reader is modelled from its declarations. `currentIter()` is the `current` field. The reader does not own the bytes it reads, and that lifetime rule is not modelled.
- LeStream.ReadS24: the header does not say how the 3-byte word is widened to 32 bits. This model chooses sign extension from bit 23, so FE FF FF reads as -2 rather than 0xFFFFFE. The model also chooses two's complement for the other signed reads, and a cursor left where it was after a failing read. The header decides none of these.
- `tryLoadFile`, `loadFileOrThrow`, `saveToFile` and `asText` are not modelled. They are file I/O.
- Image loading, the OpenGL, UI and bootstrap code, and the generic binary read/write templates are not modelled. They call into libraries outside this model (codec, GL, SDL, ImGui, iostreams).

=== FILE: color.dfy ===
/** `rigel::base::Color`: an RGBA colour with one byte per channel. */
module Colors {
  import opened Results

  datatype Color = Color(r: UInt8, g: UInt8, b: UInt8, a: UInt8)

  /** The default constructor: every member initialiser is 0, so the
      default colour is fully transparent black. */
  function Transparent(): (c: Color)
    ensures c.r == c.g == c.b == c.a == 0
  {
    Color(0, 0, 0, 0)
  }

  /** The four-argument constructor; alpha defaults to fully opaque. */
  function Rgba(r: UInt8, g: UInt8, b: UInt8, a: UInt8 := 255): (c: Color)
    ensures c.r == r && c.g == g && c.b == b && c.a == a
  {
    Color(r, g, b, a)
  }

  /** Leaving out alpha gives an opaque colour, never the default one. */
  lemma RgbaDefaultAlpha(r: UInt8, g: UInt8, b: UInt8)
    ensures Rgba(r, g, b).a == 255
    ensures Rgba(r, g, b) != Transparent()
  {
  }

  /** `operator==`: compares the tuple (r, g, b, a). */
  function Equal(c: Color, d: Color): (eq: bool)
    ensures eq <==> c == d
  {
    c.r == d.r && c.g == d.g && c.b == d.b && c.a == d.a
  }

  /** `operator!=`: the negation of `operator==`. */
  function NotEqual(c: Color, d: Color): (ne: bool)
    ensures ne <==> c != d
    ensures ne == !Equal(c, d)
  {
    !Equal(c, d)
  }

  /** `out` is `channel * alpha / 255` rounded down, described by the two
      inequalities that define floor division. */
  ghost predicate ScaledDown(out: int, channel: int, alpha: int)
  {
    out * 255 <= channel * alpha < (out + 1) * 255
  }

  /** The product of a channel and alpha fits the bounds that keep the
      scaled channel within one byte and no larger than the channel. */
  lemma ProductBounds(c: UInt8, a: UInt8)
    ensures 0 <= c * a <= c * 255
  {
  }

  /** One channel scaled by alpha with integer truncation; the operands are
      promoted to `int`, whose product stays below 2^16, and the quotient
      is at most 255 so the cast back to `uint8_t` is lossless. */
  function ScaleChannel(c: UInt8, a: UInt8): (out: UInt8)
    ensures ScaledDown(out, c, a)
    ensures out <= c
  {
    ProductBounds(c, a);
    c * a / 255
  }

  /** `asPremultiplied`: r, g and b scaled by alpha / 255, alpha kept. */
  function AsPremultiplied(c: Color): (p: Color)
    ensures p.a == c.a
    ensures ScaledDown(p.r, c.r, c.a) && ScaledDown(p.g, c.g, c.a) && ScaledDown(p.b, c.b, c.a)
    ensures p.r <= c.r && p.g <= c.g && p.b <= c.b
  {
    Color(ScaleChannel(c.r, c.a), ScaleChannel(c.g, c.a), ScaleChannel(c.b, c.a), c.a)
  }

  /** A fully opaque colour is its own premultiplied form. */
  lemma PremultipliedOpaque(c: Color)
    requires c.a == 255
    ensures AsPremultiplied(c) == c
  {
  }

  /** A fully transparent colour premultiplies to transparent black. */
  lemma PremultipliedTransparent(c: Color)
    requires c.a == 0
    ensures AsPremultiplied(c) == Transparent()
  {
  }

  /** For alpha 0 or 255, premultiplying twice equals premultiplying once.
      For every other alpha some colour, white for one, changes again
      (`PremultipliedTwiceDiffers`). */
  lemma PremultipliedIdempotent(c: Color)
    requires c.a == 0 || c.a == 255
    ensures AsPremultiplied(AsPremultiplied(c)) == AsPremultiplied(c)
  {
  }

  /** For every partial alpha, premultiplying white twice differs from
      premultiplying it once: the red channel drops from `a` below `a`. */
  lemma {:induction false} PremultipliedTwiceDiffers(a: UInt8)
    requires 0 < a < 255
    ensures AsPremultiplied(AsPremultiplied(Rgba(255, 255, 255, a))) != AsPremultiplied(Rgba(255, 255, 255, a))
  {
    assert AsPremultiplied(Rgba(255, 255, 255, a)).r == a;
    assert a * a < 255 * a;
  }
}

=== FILE: image.dfy ===
/** `rigel::base::Image`: an RGBA bitmap stored as a row-major pixel
    buffer, where pixel (x, y) lives at offset `x + y * width`. */
module Images {
  import opened Results
  import opened Colors

  /** `Pixel` is an alias of `Color`, `PixelBuffer` a vector of pixels. */
  type Pixel = Color
  type PixelBuffer = seq<Pixel>

  datatype Image = Image(pixels: PixelBuffer, width: nat, height: nat)

  /** The exceptions (`std::invalid_argument`) thrown by the bounds checks. */
  datatype ImageError =
    | SourceDoesNotFit   // insertImage: "Source image doesn't fit"
    | AreaOutOfBounds    // extractSubImage: "Area out of bounds"

  /** The class invariant the constructors rely on their callers for: the
      buffer holds exactly width * height pixels. */
  predicate Valid(img: Image)
  {
    |img.pixels| == img.width * img.height
  }

  // ---------------------------------------------------------------------
  // Row-major index arithmetic

  lemma OffsetInBounds(x: nat, y: nat, w: nat, h: nat)
    requires x < w && y < h
    ensures x + y * w < w * h
  {
    calc {
      x + y * w;
    <
      w + y * w;
    ==
      (y + 1) * w;
    <=  { MulMonotone(y + 1, h, w); }
      h * w;
    }
  }

  lemma MulMonotone(a: nat, b: nat, c: nat)
    requires a <= b
    ensures a * c <= b * c
  {
  }

  /** An in-row offset and a row number are recovered from the flat offset
      by remainder and quotient. */
  lemma OffsetSplit(x: nat, y: nat, w: nat)
    requires x < w
    ensures (x + y * w) % w == x && (x + y * w) / w == y
  {
    var i := x + y * w;
    var q, r := i / w, i % w;
    assert i == q * w + r && 0 <= r < w;
    if q > y {
      MulMonotone(y + 1, q, w);
      assert false;
    } else if q < y {
      MulMonotone(q + 1, y, w);
      assert false;
    }
  }

  /** Every flat offset inside the buffer names a pixel inside the image. */
  lemma OffsetCell(i: nat, w: nat, h: nat)
    requires i < w * h
    ensures w > 0 && i % w < w && i / w < h
    ensures i == i % w + (i / w) * w
  {
    if i / w >= h {
      MulMonotone(h, i / w, w);
    }
  }

  /** The flat offset of pixel (x, y) in a buffer of rows `width` long. */
  function Offset(x: nat, y: nat, width: nat): (i: nat)
  {
    x + y * width
  }

  lemma OffsetsInBounds(w: nat, h: nat)
    ensures forall x: nat, y: nat | x < w && y < h :: Offset(x, y, w) < w * h
  {
    forall x: nat, y: nat | x < w && y < h
      ensures Offset(x, y, w) < w * h
    {
      OffsetInBounds(x, y, w, h);
    }
  }

  /** The pixel at column x of row y (`pixelData()[x + y * width()]`). */
  function PixelAt(img: Image, x: nat, y: nat): (p: Pixel)
    requires Valid(img) && x < img.width && y < img.height
  {
    OffsetInBounds(x, y, img.width, img.height);
    img.pixels[Offset(x, y, img.width)]
  }

  /** Two valid images with the same dimensions and the same pixel at every
      position are the same image. */
  lemma {:induction false} PixelwiseEqual(a: Image, b: Image)
    requires Valid(a) && Valid(b)
    requires a.width == b.width && a.height == b.height
    requires forall x: nat, y: nat | x < a.width && y < a.height :: PixelAt(a, x, y) == PixelAt(b, x, y)
    ensures a == b
  {
    forall i | 0 <= i < |a.pixels|
      ensures a.pixels[i] == b.pixels[i]
    {
      OffsetCell(i, a.width, a.height);
      assert PixelAt(a, i % a.width, i / a.width) == PixelAt(b, i % a.width, i / a.width);
    }
  }

  /** The w x h image whose pixel (x, y) is f(x, y), laid out row-major. */
  function Build(w: nat, h: nat, f: (nat, nat) -> Pixel): (img: Image)
    ensures Valid(img) && img.width == w && img.height == h
  {
    Image(seq(w * h, i requires 0 <= i < w * h => (OffsetCell(i, w, h); f(i % w, i / w))), w, h)
  }

  lemma BuildAt(w: nat, h: nat, f: (nat, nat) -> Pixel)
    ensures forall x: nat, y: nat | x < w && y < h :: PixelAt(Build(w, h, f), x, y) == f(x, y)
  {
    forall x: nat, y: nat | x < w && y < h
      ensures PixelAt(Build(w, h, f), x, y) == f(x, y)
    {
      OffsetSplit(x, y, w);
      OffsetInBounds(x, y, w, h);
    }
  }

  // ---------------------------------------------------------------------
  // Constructors

  /** `Image(pixels, width, height)`, by copy or by move. Neither overload
      checks the buffer length, so the caller must supply width * height
      pixels. */
  function FromPixels(pixels: PixelBuffer, width: nat, height: nat): (img: Image)
    requires |pixels| == width * height
    ensures Valid(img)
    ensures img.pixels == pixels && img.width == width && img.height == height
  {
    Image(pixels, width, height)
  }

  /** `Image(width, height)`: width * height default (transparent black)
      pixels. */
  function Blank(width: nat, height: nat): (img: Image)
    ensures Valid(img) && img.width == width && img.height == height
    ensures forall i | 0 <= i < |img.pixels| :: img.pixels[i] == Transparent()
    ensures forall x: nat, y: nat | x < width && y < height :: PixelAt(img, x, y) == Color(0, 0, 0, 0)
  {
    OffsetsInBounds(width, height);
    Image(seq(width * height, _ => Transparent()), width, height)
  }

  // ---------------------------------------------------------------------
  // Transforms (const member functions: they return a new image)

  /** `flipped()`: row y of the result is row height - 1 - y of the
      receiver. */
  function Flipped(img: Image): (r: Image)
    requires Valid(img)
    ensures Valid(r) && r.width == img.width && r.height == img.height
    ensures forall x: nat, y: nat | x < r.width && y < r.height ::
      PixelAt(r, x, y) == PixelAt(img, x, img.height - 1 - y)
  {
    var f := (x: nat, y: nat) =>
      if x < img.width && y < img.height then PixelAt(img, x, img.height - 1 - y) else Transparent();
    BuildAt(img.width, img.height, f);
    Build(img.width, img.height, f)
  }

  /** Flipping twice restores the original image. */
  lemma {:induction false} FlippedTwice(img: Image)
    requires Valid(img)
    ensures Flipped(Flipped(img)) == img
  {
    var once := Flipped(img);
    PixelwiseEqual(Flipped(once), img);
  }

  /** `withPremultipliedAlpha()`: the same buffer with every pixel replaced
      by its premultiplied form. */
  function WithPremultipliedAlpha(img: Image): (r: Image)
    requires Valid(img)
    ensures Valid(r) && r.width == img.width && r.height == img.height
    ensures forall x: nat, y: nat | x < r.width && y < r.height ::
      PixelAt(r, x, y) == AsPremultiplied(PixelAt(img, x, y))
  {
    OffsetsInBounds(img.width, img.height);
    Image(seq(img.width * img.height, i requires 0 <= i < img.width * img.height =>
      AsPremultiplied(img.pixels[i])), img.width, img.height)
  }

  /** Premultiplying an image in which every pixel is opaque changes
      nothing. */
  lemma {:induction false} PremultipliedOpaqueImage(img: Image)
    requires Valid(img)
    requires forall i | 0 <= i < |img.pixels| :: img.pixels[i].a == 255
    ensures WithPremultipliedAlpha(img) == img
  {
    var r := WithPremultipliedAlpha(img);
    forall i | 0 <= i < |img.pixels|
      ensures r.pixels[i] == img.pixels[i]
    {
      PremultipliedOpaque(img.pixels[i]);
    }
  }

  /** Premultiplying maps every fully transparent pixel to (0, 0, 0, 0). */
  lemma {:induction false} PremultipliedClearsTransparent(img: Image)
    requires Valid(img)
    ensures forall x: nat, y: nat | x < img.width && y < img.height && PixelAt(img, x, y).a == 0 ::
      PixelAt(WithPremultipliedAlpha(img), x, y) == Transparent()
  {
    forall x: nat, y: nat | x < img.width && y < img.height && PixelAt(img, x, y).a == 0
      ensures PixelAt(WithPremultipliedAlpha(img), x, y) == Transparent()
    {
      PremultipliedTransparent(PixelAt(img, x, y));
    }
  }

  // ---------------------------------------------------------------------
  // Region copy

  /** The number of whole rows in a source buffer of the given width
      (`pixels.size() / sourceWidth`, truncating). */
  function InferredHeight(pixels: PixelBuffer, sourceWidth: nat): (h: nat)
    requires sourceWidth > 0
    ensures h * sourceWidth <= |pixels| < (h + 1) * sourceWidth
  {
    |pixels| / sourceWidth
  }

  /** Whether target position (px, py) lies in the w x h block at (x, y). */
  predicate InBlock(px: nat, py: nat, x: nat, y: nat, w: nat, h: nat)
  {
    x <= px < x + w && y <= py < y + h
  }

  /** `insertImage(x, y, pixels, sourceWidth)`: copies the source block,
      `pixels.size() / sourceWidth` whole rows of `sourceWidth` pixels,
      into the receiver with its top-left corner at (x, y). The bounds
      check precedes every write, so on failure no new image exists and the
      receiver stays as it was. Leftover source pixels past the last whole
      row are ignored. `sourceWidth` is a divisor, hence must not be 0. */
  function InsertImage(img: Image, x: nat, y: nat, pixels: PixelBuffer, sourceWidth: nat): (r: Result<Image, ImageError>)
    requires Valid(img) && sourceWidth > 0
    ensures r.Err? <==> x + sourceWidth > img.width || y + |pixels| / sourceWidth > img.height
    ensures r.Err? ==> r.error == SourceDoesNotFit
    ensures r.Ok? ==> Valid(r.value) && r.value.width == img.width && r.value.height == img.height
    ensures r.Ok? ==> forall px: nat, py: nat | px < img.width && py < img.height && InBlock(px, py, x, y, sourceWidth, |pixels| / sourceWidth) ::
      Offset(px - x, py - y, sourceWidth) < |pixels| && PixelAt(r.value, px, py) == pixels[Offset(px - x, py - y, sourceWidth)]
    ensures r.Ok? ==> forall px: nat, py: nat | px < img.width && py < img.height && !InBlock(px, py, x, y, sourceWidth, |pixels| / sourceWidth) ::
      PixelAt(r.value, px, py) == PixelAt(img, px, py)
  {
    var inferredHeight := InferredHeight(pixels, sourceWidth);
    if x + sourceWidth > img.width || y + inferredHeight > img.height then
      Err(SourceDoesNotFit)
    else
      var f := (px: nat, py: nat) =>
        if InBlock(px, py, x, y, sourceWidth, inferredHeight) && px < img.width && py < img.height then
          OffsetInBounds(px - x, py - y, sourceWidth, inferredHeight);
          pixels[Offset(px - x, py - y, sourceWidth)]
        else if px < img.width && py < img.height then
          PixelAt(img, px, py)
        else
          Transparent();
      BuildAt(img.width, img.height, f);
      BlockInBounds(pixels, sourceWidth);
      Ok(Build(img.width, img.height, f))
  }

  /** The receiver's state once `insertImage` returns or throws: the
      updated image on success, the untouched receiver on failure. */
  function ReceiverAfterInsert(img: Image, x: nat, y: nat, pixels: PixelBuffer, sourceWidth: nat): (after: Image)
    requires Valid(img) && sourceWidth > 0
    ensures Valid(after) && after.width == img.width && after.height == img.height
    ensures (x + sourceWidth > img.width || y + |pixels| / sourceWidth > img.height) ==> after == img
  {
    match InsertImage(img, x, y, pixels, sourceWidth)
    case Ok(updated) => updated
    case Err(_) => img
  }

  lemma BlockInBounds(pixels: PixelBuffer, sourceWidth: nat)
    requires sourceWidth > 0
    ensures forall col: nat, row: nat | col < sourceWidth && row < |pixels| / sourceWidth ::
      Offset(col, row, sourceWidth) < |pixels|
  {
    OffsetsInBounds(sourceWidth, |pixels| / sourceWidth);
  }

  /** A well-formed image consists of exactly `height` whole rows. */
  lemma WholeRows(img: Image)
    requires Valid(img) && img.width > 0
    ensures InferredHeight(img.pixels, img.width) == img.height
  {
    OffsetSplit(0, img.height, img.width);
  }

  /** `insertImage(x, y, image)`: forwards the source's pixel buffer and
      width. For a well-formed source the inferred height is its height, so
      the check compares both dimensions. */
  function InsertImageFrom(img: Image, x: nat, y: nat, source: Image): (r: Result<Image, ImageError>)
    requires Valid(img) && source.width > 0
    ensures r == InsertImage(img, x, y, source.pixels, source.width)
    ensures Valid(source) ==>
      (r.Err? <==> x + source.width > img.width || y + source.height > img.height)
    ensures Valid(source) && r.Ok? ==> forall col: nat, row: nat | col < source.width && row < source.height ::
      PixelAt(r.value, x + col, y + row) == PixelAt(source, col, row)
  {
    if Valid(source) then
      WholeRows(source);
      InsertImage(img, x, y, source.pixels, source.width)
    else
      InsertImage(img, x, y, source.pixels, source.width)
  }

  /** `extractSubImage(x, y, width, height)`: a new width x height image
      whose pixel (c, r) is the receiver's pixel (x + c, y + r). */
  function ExtractSubImage(img: Image, x: nat, y: nat, width: nat, height: nat): (r: Result<Image, ImageError>)
    requires Valid(img)
    ensures r.Err? <==> x + width > img.width || y + height > img.height
    ensures r.Err? ==> r.error == AreaOutOfBounds
    ensures r.Ok? ==> Valid(r.value) && r.value.width == width && r.value.height == height
    ensures r.Ok? ==> forall col: nat, row: nat | col < width && row < height ::
      PixelAt(r.value, col, row) == PixelAt(img, x + col, y + row)
  {
    if x + width > img.width || y + height > img.height then
      Err(AreaOutOfBounds)
    else
      var f := (col: nat, row: nat) =>
        if x + col < img.width && y + row < img.height then PixelAt(img, x + col, y + row) else Transparent();
      BuildAt(width, height, f);
      Ok(Build(width, height, f))
  }

  /** Extracting the whole area yields an image equal to the receiver. */
  lemma {:induction false} ExtractWhole(img: Image)
    requires Valid(img)
    ensures ExtractSubImage(img, 0, 0, img.width, img.height) == Ok(img)
  {
    var r := ExtractSubImage(img, 0, 0, img.width, img.height);
    PixelwiseEqual(r.value, img);
  }

  /** Extracting the block that was just inserted, at the same offset and
      size, yields exactly the inserted whole rows. */
  lemma {:induction false} ExtractAfterInsert(img: Image, x: nat, y: nat, pixels: PixelBuffer, sourceWidth: nat)
    requires Valid(img) && sourceWidth > 0
    requires InsertImage(img, x, y, pixels, sourceWidth).Ok?
    ensures var h := |pixels| / sourceWidth;
      ExtractSubImage(InsertImage(img, x, y, pixels, sourceWidth).value, x, y, sourceWidth, h)
        == Ok(Image(pixels[..sourceWidth * h], sourceWidth, h))
  {
    var h := |pixels| / sourceWidth;
    var inserted := InsertImage(img, x, y, pixels, sourceWidth).value;
    var block := Image(pixels[..sourceWidth * h], sourceWidth, h);
    var r := ExtractSubImage(inserted, x, y, sourceWidth, h);
    forall col: nat, row: nat | col < sourceWidth && row < h
      ensures PixelAt(r.value, col, row) == PixelAt(block, col, row)
    {
      OffsetInBounds(col, row, sourceWidth, h);
    }
    PixelwiseEqual(r.value, block);
  }

  /** Inserting a whole-image-sized block at the origin replaces every
      pixel. */
  lemma {:induction false} InsertCoveringImage(img: Image, source: Image)
    requires Valid(img) && Valid(source)
    requires source.width == img.width && source.height == img.height && source.width > 0
    ensures InsertImageFrom(img, 0, 0, source) == Ok(source)
  {
    var r := InsertImageFrom(img, 0, 0, source);
    PixelwiseEqual(r.value, source);
  }
}

=== FILE: le_stream_reader.dfy ===
/** `rigel::base::LeStreamReader`: checked reading of little-endian integers
    from a byte buffer. The reader is a cursor and a fixed end over bytes it
    does not own; here the bytes are an immutable sequence and every read
    yields the value together with the advanced reader. */
module LeStream {
  import opened Results
  import Strings

  type ByteBuffer = seq<UInt8>

  /** The exception every read, peek and skip throws when too few bytes
      are left. */
  datatype ReadError = UnexpectedEndOfData

  /** `mCurrentByteIter` and the `const` `mDataEnd`, as offsets into
      `data`. */
  datatype Reader = Reader(data: ByteBuffer, current: nat, end: nat)

  predicate Valid(rd: Reader)
  {
    rd.current <= rd.end <= |rd.data|
  }

  /** A decoded value and the reader after the read. */
  type Decoded<T> = (T, Reader)

  /** A reader moved forward by `count` bytes: only the cursor changes. */
  predicate Advanced(before: Reader, after: Reader, count: nat)
  {
    after == before.(current := before.current + count)
  }

  // ---------------------------------------------------------------------
  // Construction and position

  /** `LeStreamReader(const ByteBuffer&)`: the whole buffer. */
  function FromBuffer(data: ByteBuffer): (rd: Reader)
    ensures Valid(rd) && NumBytesLeft(rd) == |data|
    ensures rd.data == data && rd.current == 0
  {
    Reader(data, 0, |data|)
  }

  /** `LeStreamReader(begin, end)`: the bytes between two positions. */
  function FromRange(data: ByteBuffer, begin: nat, end: nat): (rd: Reader)
    requires begin <= end <= |data|
    ensures Valid(rd) && NumBytesLeft(rd) == end - begin
    ensures rd.data == data && rd.current == begin && rd.end == end
  {
    Reader(data, begin, end)
  }

  /** `numBytesLeft()`: the distance from the cursor to the end. */
  function NumBytesLeft(rd: Reader): (n: nat)
    requires Valid(rd)
    ensures rd.current + n == rd.end
  {
    rd.end - rd.current
  }

  /** `hasData()`: the cursor has not reached the end. */
  function HasData(rd: Reader): (b: bool)
    requires Valid(rd)
    ensures b <==> NumBytesLeft(rd) > 0
  {
    rd.current != rd.end
  }

  // ---------------------------------------------------------------------
  // Little-endian integers

  /** 256 to the power n: the number of values n bytes can hold. */
  function Pow256(n: nat): (p: nat)
    ensures p >= 1
  {
    if n == 0 then 1 else 256 * Pow256(n - 1)
  }

  /** The unsigned value of bytes stored least significant first. */
  function LeValue(bytes: ByteBuffer): (v: nat)
    ensures v < Pow256(|bytes|)
  {
    if |bytes| == 0 then 0 else bytes[0] + 256 * LeValue(bytes[1..])
  }

  /** The byte `k` places after the cursor, as a number. */
  function Byte(rd: Reader, k: nat): (b: int)
    requires Valid(rd) && rd.current + k < |rd.data|
  {
    rd.data[rd.current + k] as int
  }

  /** The value of up to four bytes, spelled out positionally. */
  lemma {:induction false} LeValueExpanded(bytes: ByteBuffer)
    requires 1 <= |bytes| <= 4
    ensures |bytes| == 1 ==> LeValue(bytes) == (bytes[0] as int)
    ensures |bytes| == 2 ==> LeValue(bytes) == bytes[0] as int + 0x100 * (bytes[1] as int)
    ensures |bytes| == 3 ==> LeValue(bytes) == bytes[0] as int + 0x100 * (bytes[1] as int) + 0x1_0000 * (bytes[2] as int)
    ensures |bytes| == 4 ==> (LeValue(bytes) ==
      bytes[0] as int + 0x100 * (bytes[1] as int) + 0x1_0000 * (bytes[2] as int) + 0x100_0000 * (bytes[3] as int))
  {
    var b := bytes;
    assert LeValue(b) == b[0] + 256 * LeValue(b[1..]);
    if |b| >= 2 {
      assert LeValue(b[1..]) == b[1] + 256 * LeValue(b[2..]);
      if |b| >= 3 {
        assert LeValue(b[2..]) == b[2] + 256 * LeValue(b[3..]);
        if |b| == 4 {
          assert LeValue(b[3..]) == b[3] + 256 * LeValue(b[4..]);
        }
      }
    }
  }

  /** The n-byte little-endian encoding of v. */
  function LeBytes(v: nat, n: nat): (bytes: ByteBuffer)
    ensures |bytes| == n
  {
    if n == 0 then [] else [v % 256] + LeBytes(v / 256, n - 1)
  }

  /** Encoding then decoding n bytes gives back any value below 256^n. */
  lemma {:induction false} LeValueOfBytes(v: nat, n: nat)
    requires v < Pow256(n)
    ensures LeValue(LeBytes(v, n)) == v
  {
    if n > 0 {
      LeValueOfBytes(v / 256, n - 1);
    }
  }

  /** Decoding then encoding at the same width gives back the bytes. */
  lemma {:induction false} LeBytesOfValue(bytes: ByteBuffer)
    ensures LeBytes(LeValue(bytes), |bytes|) == bytes
  {
    if |bytes| > 0 {
      var rest := LeValue(bytes[1..]);
      assert (bytes[0] + 256 * rest) % 256 == bytes[0];
      assert (bytes[0] + 256 * rest) / 256 == rest;
      LeBytesOfValue(bytes[1..]);
    }
  }

  /** The two's-complement reading of an unsigned value below `modulus`. */
  function TwosComplement(u: nat, modulus: nat): (s: int)
    requires modulus > 0 && u < modulus
    ensures 0 <= 2 * s + modulus && 2 * s < modulus
    ensures s % modulus == u
  {
    if 2 * u >= modulus then u - modulus else u
  }

  // ---------------------------------------------------------------------
  // Checked reads

  /** The next `count` bytes, or the end-of-data failure. */
  function Take(rd: Reader, count: nat): (r: Result<Decoded<ByteBuffer>, ReadError>)
    requires Valid(rd)
    ensures r.Err? <==> NumBytesLeft(rd) < count
    ensures r.Ok? ==> |r.value.0| == count && Valid(r.value.1) && Advanced(rd, r.value.1, count)
    ensures r.Ok? ==> forall k | 0 <= k < count :: r.value.0[k] == rd.data[rd.current + k]
  {
    if NumBytesLeft(rd) < count then Err(UnexpectedEndOfData)
    else Ok((rd.data[rd.current..rd.current + count], rd.(current := rd.current + count)))
  }

  /** An unsigned little-endian integer of `width` bytes. */
  function ReadUnsigned(rd: Reader, width: nat): (r: Result<Decoded<nat>, ReadError>)
    requires Valid(rd)
    ensures r.Err? <==> NumBytesLeft(rd) < width
    ensures r.Ok? ==> r.value.0 < Pow256(width) && Valid(r.value.1) && Advanced(rd, r.value.1, width)
    ensures r.Ok? ==> r.value.0 == LeValue(rd.data[rd.current..rd.current + width])
  {
    match Take(rd, width)
    case Err(e) => Err(e)
    case Ok((bytes, next)) => Ok((LeValue(bytes), next))
  }

  /** `readU8()` */
  function ReadU8(rd: Reader): (r: Result<Decoded<UInt8>, ReadError>)
    requires Valid(rd)
    ensures r.Err? <==> NumBytesLeft(rd) < 1
    ensures r.Ok? ==> Valid(r.value.1) && Advanced(rd, r.value.1, 1)
    ensures r.Ok? ==> r.value.0 == rd.data[rd.current]
  {
    match ReadUnsigned(rd, 1)
    case Err(e) => Err(e)
    case Ok((v, next)) =>
      LeValueExpanded(rd.data[rd.current..rd.current + 1]);
      Ok((v, next))
  }

  /** `readU16()` */
  function ReadU16(rd: Reader): (r: Result<Decoded<UInt16>, ReadError>)
    requires Valid(rd)
    ensures r.Err? <==> NumBytesLeft(rd) < 2
    ensures r.Ok? ==> Valid(r.value.1) && Advanced(rd, r.value.1, 2)
    ensures r.Ok? ==> r.value.0 == Byte(rd, 0) + 0x100 * Byte(rd, 1)
  {
    match ReadUnsigned(rd, 2)
    case Err(e) => Err(e)
    case Ok((v, next)) =>
      LeValueExpanded(rd.data[rd.current..rd.current + 2]);
      Ok((v, next))
  }

  /** `readU24()`: a 32-bit word stored as 3 bytes. */
  function ReadU24(rd: Reader): (r: Result<Decoded<UInt32>, ReadError>)
    requires Valid(rd)
    ensures r.Err? <==> NumBytesLeft(rd) < 3
    ensures r.Ok? ==> Valid(r.value.1) && Advanced(rd, r.value.1, 3)
    ensures r.Ok? ==> r.value.0 < 0x100_0000
    ensures r.Ok? ==> r.value.0 == Byte(rd, 0) + 0x100 * Byte(rd, 1) + 0x1_0000 * Byte(rd, 2)
  {
    match ReadUnsigned(rd, 3)
    case Err(e) => Err(e)
    case Ok((v, next)) =>
      LeValueExpanded(rd.data[rd.current..rd.current + 3]);
      Ok((v, next))
  }

  /** `readU32()` */
  function ReadU32(rd: Reader): (r: Result<Decoded<UInt32>, ReadError>)
    requires Valid(rd)
    ensures r.Err? <==> NumBytesLeft(rd) < 4
    ensures r.Ok? ==> Valid(r.value.1) && Advanced(rd, r.value.1, 4)
    ensures r.Ok? ==> (r.value.0 ==
      Byte(rd, 0) + 0x100 * Byte(rd, 1) + 0x1_0000 * Byte(rd, 2) + 0x100_0000 * Byte(rd, 3))
  {
    match ReadUnsigned(rd, 4)
    case Err(e) => Err(e)
    case Ok((v, next)) =>
      LeValueExpanded(rd.data[rd.current..rd.current + 4]);
      Ok((v, next))
  }

  /** `readS8()`: the same byte as `readU8()`, as two's complement. */
  function ReadS8(rd: Reader): (r: Result<Decoded<Int8>, ReadError>)
    requires Valid(rd)
    ensures r.Err? <==> ReadU8(rd).Err?
    ensures r.Ok? ==> r.value.1 == ReadU8(rd).value.1 && r.value.0 % 0x100 == ReadU8(rd).value.0
  {
    match ReadU8(rd)
    case Err(e) => Err(e)
    case Ok((u, next)) => Ok((TwosComplement(u, 0x100), next))
  }

  /** `readS16()` */
  function ReadS16(rd: Reader): (r: Result<Decoded<Int16>, ReadError>)
    requires Valid(rd)
    ensures r.Err? <==> ReadU16(rd).Err?
    ensures r.Ok? ==> r.value.1 == ReadU16(rd).value.1 && r.value.0 % 0x1_0000 == ReadU16(rd).value.0
  {
    match ReadU16(rd)
    case Err(e) => Err(e)
    case Ok((u, next)) => Ok((TwosComplement(u, 0x1_0000), next))
  }

  /** `readS24()`: 3 bytes sign-extended from bit 23 to a 32-bit result. */
  function ReadS24(rd: Reader): (r: Result<Decoded<Int32>, ReadError>)
    requires Valid(rd)
    ensures r.Err? <==> ReadU24(rd).Err?
    ensures r.Ok? ==> -0x80_0000 <= r.value.0 < 0x80_0000
    ensures r.Ok? ==> r.value.1 == ReadU24(rd).value.1 && r.value.0 % 0x100_0000 == ReadU24(rd).value.0
  {
    match ReadU24(rd)
    case Err(e) => Err(e)
    case Ok((u, next)) => Ok((TwosComplement(u, 0x100_0000), next))
  }

  /** `readS32()` */
  function ReadS32(rd: Reader): (r: Result<Decoded<Int32>, ReadError>)
    requires Valid(rd)
    ensures r.Err? <==> ReadU32(rd).Err?
    ensures r.Ok? ==> r.value.1 == ReadU32(rd).value.1 && r.value.0 % 0x1_0000_0000 == ReadU32(rd).value.0
  {
    match ReadU32(rd)
    case Err(e) => Err(e)
    case Ok((u, next)) => Ok((TwosComplement(u, 0x1_0000_0000), next))
  }

  // ---------------------------------------------------------------------
  // Peeks

  /** `withPreservingCurrentIter`: runs a read and restores the cursor
      afterwards, so a successful peek hands back the reader it was given. */
  function PreservingCursor<T>(rd: Reader, read: Reader --> Result<Decoded<T>, ReadError>): (r: Result<Decoded<T>, ReadError>)
    requires read.requires(rd)
    ensures r.Err? <==> read(rd).Err?
    ensures r.Ok? ==> r.value.0 == read(rd).value.0 && r.value.1 == rd
  {
    match read(rd)
    case Err(e) => Err(e)
    case Ok((v, _)) => Ok((v, rd))
  }

  function PeekU8(rd: Reader): (r: Result<Decoded<UInt8>, ReadError>)
    requires Valid(rd)
    ensures r.Err? <==> NumBytesLeft(rd) < 1
    ensures r.Ok? ==> r.value.0 == ReadU8(rd).value.0 && r.value.1 == rd
  {
    PreservingCursor(rd, ReadU8)
  }

  function PeekU16(rd: Reader): (r: Result<Decoded<UInt16>, ReadError>)
    requires Valid(rd)
    ensures r.Err? <==> NumBytesLeft(rd) < 2
    ensures r.Ok? ==> r.value.0 == ReadU16(rd).value.0 && r.value.1 == rd
  {
    PreservingCursor(rd, ReadU16)
  }

  function PeekU24(rd: Reader): (r: Result<Decoded<UInt32>, ReadError>)
    requires Valid(rd)
    ensures r.Err? <==> NumBytesLeft(rd) < 3
    ensures r.Ok? ==> r.value.0 == ReadU24(rd).value.0 && r.value.1 == rd
  {
    PreservingCursor(rd, ReadU24)
  }

  function PeekU32(rd: Reader): (r: Result<Decoded<UInt32>, ReadError>)
    requires Valid(rd)
    ensures r.Err? <==> NumBytesLeft(rd) < 4
    ensures r.Ok? ==> r.value.0 == ReadU32(rd).value.0 && r.value.1 == rd
  {
    PreservingCursor(rd, ReadU32)
  }

  function PeekS8(rd: Reader): (r: Result<Decoded<Int8>, ReadError>)
    requires Valid(rd)
    ensures r.Err? <==> NumBytesLeft(rd) < 1
    ensures r.Ok? ==> r.value.0 == ReadS8(rd).value.0 && r.value.1 == rd
  {
    PreservingCursor(rd, ReadS8)
  }

  function PeekS16(rd: Reader): (r: Result<Decoded<Int16>, ReadError>)
    requires Valid(rd)
    ensures r.Err? <==> NumBytesLeft(rd) < 2
    ensures r.Ok? ==> r.value.0 == ReadS16(rd).value.0 && r.value.1 == rd
  {
    PreservingCursor(rd, ReadS16)
  }

  function PeekS24(rd: Reader): (r: Result<Decoded<Int32>, ReadError>)
    requires Valid(rd)
    ensures r.Err? <==> NumBytesLeft(rd) < 3
    ensures r.Ok? ==> r.value.0 == ReadS24(rd).value.0 && r.value.1 == rd
  {
    PreservingCursor(rd, ReadS24)
  }

  function PeekS32(rd: Reader): (r: Result<Decoded<Int32>, ReadError>)
    requires Valid(rd)
    ensures r.Err? <==> NumBytesLeft(rd) < 4
    ensures r.Ok? ==> r.value.0 == ReadS32(rd).value.0 && r.value.1 == rd
  {
    PreservingCursor(rd, ReadS32)
  }

  // ---------------------------------------------------------------------
  // Skipping and strings

  /** `skipBytes(count)`: moves the cursor without decoding. */
  function SkipBytes(rd: Reader, count: nat): (r: Result<Reader, ReadError>)
    requires Valid(rd)
    ensures r.Err? <==> NumBytesLeft(rd) < count
    ensures r.Ok? ==> Valid(r.value) && Advanced(rd, r.value, count)
    ensures r.Ok? ==> NumBytesLeft(r.value) == NumBytesLeft(rd) - count
  {
    match Take(rd, count)
    case Err(e) => Err(e)
    case Ok((_, next)) => Ok(next)
  }

  /** `readFixedSizeString(reader, len)`: exactly `len` bytes as text, with
      no length prefix and no terminator. */
  function ReadFixedSizeString(rd: Reader, len: nat): (r: Result<Decoded<Strings.CString>, ReadError>)
    requires Valid(rd)
    ensures r.Err? <==> NumBytesLeft(rd) < len
    ensures r.Ok? ==> Valid(r.value.1) && Advanced(rd, r.value.1, len) && |r.value.0| == len
    ensures r.Ok? ==> forall k | 0 <= k < len :: r.value.0[k] as int == rd.data[rd.current + k]
  {
    match Take(rd, len)
    case Err(e) => Err(e)
    case Ok((bytes, next)) =>
      Ok((seq(|bytes|, k requires 0 <= k < |bytes| => bytes[k] as char), next))
  }

  // ---------------------------------------------------------------------
  // Properties relating several calls

  /** A read consumes exactly its width: the bytes left drop by that much,
      and a failed read leaves nothing behind to observe. */
  lemma ReadConsumesWidth(rd: Reader)
    requires Valid(rd)
    ensures ReadU8(rd).Ok? ==> NumBytesLeft(ReadU8(rd).value.1) == NumBytesLeft(rd) - 1
    ensures ReadU16(rd).Ok? ==> NumBytesLeft(ReadU16(rd).value.1) == NumBytesLeft(rd) - 2
    ensures ReadU24(rd).Ok? ==> NumBytesLeft(ReadU24(rd).value.1) == NumBytesLeft(rd) - 3
    ensures ReadU32(rd).Ok? ==> NumBytesLeft(ReadU32(rd).value.1) == NumBytesLeft(rd) - 4
  {
  }

  /** A peek followed by a read yields the same value twice, and the read
      moves the cursor by exactly four bytes. */
  lemma {:induction false} PeekThenRead(rd: Reader)
    requires Valid(rd) && NumBytesLeft(rd) >= 4
    ensures var peeked := PeekU32(rd).value;
      var read := ReadU32(peeked.1).value;
      peeked.0 == read.0 && read.1.current == rd.current + 4
  {
  }

  /** Reading back a 32-bit value written least significant byte first. */
  lemma {:induction false} ReadU32OfEncoding(v: UInt32, rest: ByteBuffer)
    ensures ReadU32(FromBuffer(LeBytes(v, 4) + rest)).Ok?
    ensures ReadU32(FromBuffer(LeBytes(v, 4) + rest)).value.0 == v
  {
    var data := LeBytes(v, 4) + rest;
    assert data[0..4] == LeBytes(v, 4);
    LeValueOfBytes(v, 4);
  }

  /** [1, 2, 3, 4] reads as 0x04030201 and empties the buffer. */
  lemma ExampleReadU32()
    ensures ReadU32(FromBuffer([1, 2, 3, 4])) == Ok((0x0403_0201, Reader([1, 2, 3, 4], 4, 4)))
  {
    var rd := FromBuffer([1, 2, 3, 4]);
    assert Byte(rd, 0) == 1 && Byte(rd, 1) == 2 && Byte(rd, 2) == 3 && Byte(rd, 3) == 4;
  }

  /** The byte 0xFF reads as 255 unsigned and -1 signed. */
  lemma ExampleSigned8(data: ByteBuffer)
    requires |data| == 1 && data[0] == 0xFF
    ensures ReadU8(FromBuffer(data)).value.0 == 255
    ensures ReadS8(FromBuffer(data)).value.0 == -1
  {
  }

  /** 24-bit reads are sign-extended from bit 23. */
  lemma ExampleSigned24(data: ByteBuffer)
    requires |data| == 3 && data[0] == 0xFE && data[1] == 0xFF && data[2] == 0xFF
    ensures ReadU24(FromBuffer(data)).value.0 == 0xFF_FFFE
    ensures ReadS24(FromBuffer(data)).value.0 == -2
  {
  }

  /** Too few bytes: the read fails. */
  lemma ExampleShort(data: ByteBuffer)
    requires |data| == 1
    ensures ReadU16(FromBuffer(data)) == Err(UnexpectedEndOfData)
  {
  }

  /** The five bytes of "hello" read back as that text and empty the
      buffer. */
  lemma ExampleString(data: ByteBuffer)
    requires |data| == 5
    requires data[0] == 0x68 && data[1] == 0x65 && data[2] == 0x6C && data[3] == 0x6C && data[4] == 0x6F
    ensures var r := ReadFixedSizeString(FromBuffer(data), 5);
      r.Ok? && r.value.0 == "hello" && NumBytesLeft(r.value.1) == 0
  {
    var text := ReadFixedSizeString(FromBuffer(data), 5).value.0;
    assert text[0] == 'h' && text[1] == 'e' && text[2] == 'l' && text[3] == 'l' && text[4] == 'o';
  }
}

=== FILE: results.dfy ===
/** Machine integer ranges and the success/failure wrapper shared by the
    pixel buffer and the little-endian reader. */
module Results {

  /** `std::uint8_t` */
  type UInt8 = x: int | 0 <= x < 0x100
  /** `std::uint16_t` */
  type UInt16 = x: int | 0 <= x < 0x1_0000
  /** `std::uint32_t` */
  type UInt32 = x: int | 0 <= x < 0x1_0000_0000
  /** `std::int8_t` */
  type Int8 = x: int | -0x80 <= x < 0x80
  /** `std::int16_t` */
  type Int16 = x: int | -0x8000 <= x < 0x8000
  /** `std::int32_t` */
  type Int32 = x: int | -0x8000_0000 <= x < 0x8000_0000

  /** The value of an operation, or the exception it throws instead. */
  datatype Result<+T, +E> = Ok(value: T) | Err(error: E)
}

=== FILE: spatial.dfy ===
/** `Vec2T<int>`, `SizeT<int>` and `Rect<int>` (`Vec2`, `Size`,
    `Rect<int>`): integer 2D points, extents and rectangles whose corners
    are inclusive. */
module Spatial {

  datatype Vec2 = Vec2(x: int, y: int)
  datatype Size = Size(width: int, height: int)
  datatype Rect = Rect(topLeft: Vec2, size: Size)

  /** The default constructors: every member initialiser is 0. */
  const ZeroVec: Vec2 := Vec2(0, 0)
  const ZeroSize: Size := Size(0, 0)

  // ---------------------------------------------------------------------
  // Arithmetic

  /** `operator+` on points: adding leaves `lhs` unchanged exactly when
      `rhs` is the default point. */
  function AddVec(lhs: Vec2, rhs: Vec2): (r: Vec2)
    ensures r == lhs <==> rhs == ZeroVec
  {
    Vec2(lhs.x + rhs.x, lhs.y + rhs.y)
  }

  /** `operator-` on points: the difference is the default point exactly
      when the operands are equal. */
  function SubVec(lhs: Vec2, rhs: Vec2): (r: Vec2)
    ensures r == ZeroVec <==> lhs == rhs
  {
    Vec2(lhs.x - rhs.x, lhs.y - rhs.y)
  }

  /** `operator+` on sizes: adding leaves `lhs` unchanged exactly when
      `rhs` is the default size. */
  function AddSize(lhs: Size, rhs: Size): (r: Size)
    ensures r == lhs <==> rhs == ZeroSize
  {
    Size(lhs.width + rhs.width, lhs.height + rhs.height)
  }

  /** `operator-` on sizes: the difference is the default size exactly
      when the operands are equal. */
  function SubSize(lhs: Size, rhs: Size): (r: Size)
    ensures r == ZeroSize <==> lhs == rhs
  {
    Size(lhs.width - rhs.width, lhs.height - rhs.height)
  }

  /** `+` and `-` form a commutative group on points with the default
      point as neutral element; subtraction undoes addition. */
  lemma VecGroup(a: Vec2, b: Vec2, c: Vec2)
    ensures AddVec(a, b) == AddVec(b, a)
    ensures AddVec(AddVec(a, b), c) == AddVec(a, AddVec(b, c))
    ensures AddVec(a, ZeroVec) == a && SubVec(a, ZeroVec) == a
    ensures SubVec(AddVec(a, b), b) == a && AddVec(SubVec(a, b), b) == a
    ensures SubVec(a, a) == ZeroVec
  {
  }

  /** The same laws for sizes. */
  lemma SizeGroup(a: Size, b: Size, c: Size)
    ensures AddSize(a, b) == AddSize(b, a)
    ensures AddSize(AddSize(a, b), c) == AddSize(a, AddSize(b, c))
    ensures AddSize(a, ZeroSize) == a && SubSize(a, ZeroSize) == a
    ensures SubSize(AddSize(a, b), b) == a && AddSize(SubSize(a, b), b) == a
    ensures SubSize(a, a) == ZeroSize
  {
  }

  /** `+=`: computes `lhs + rhs` and swaps it into `lhs`. */
  method AddAssignVec(lhs: Vec2, rhs: Vec2) returns (updated: Vec2)
    ensures updated.x == lhs.x + rhs.x && updated.y == lhs.y + rhs.y
    ensures updated == AddVec(lhs, rhs)
  {
    var newPoint := AddVec(lhs, rhs);
    updated := newPoint;
  }

  /** `-=`: computes `lhs - rhs` and swaps it into `lhs`. */
  method SubAssignVec(lhs: Vec2, rhs: Vec2) returns (updated: Vec2)
    ensures updated.x == lhs.x - rhs.x && updated.y == lhs.y - rhs.y
    ensures updated == SubVec(lhs, rhs)
  {
    var newPoint := SubVec(lhs, rhs);
    updated := newPoint;
  }

  /** `+=` on sizes. */
  method AddAssignSize(lhs: Size, rhs: Size) returns (updated: Size)
    ensures updated.width == lhs.width + rhs.width && updated.height == lhs.height + rhs.height
    ensures updated == AddSize(lhs, rhs)
  {
    var newSize := AddSize(lhs, rhs);
    updated := newSize;
  }

  /** `-=` on sizes. */
  method SubAssignSize(lhs: Size, rhs: Size) returns (updated: Size)
    ensures updated.width == lhs.width - rhs.width && updated.height == lhs.height - rhs.height
    ensures updated == SubSize(lhs, rhs)
  {
    var newSize := SubSize(lhs, rhs);
    updated := newSize;
  }

  // ---------------------------------------------------------------------
  // Equality and conversions

  /** `Vec2T::operator==` compares (x, y); `!=` negates it. */
  function VecEqual(lhs: Vec2, rhs: Vec2): (eq: bool)
    ensures eq <==> lhs == rhs
  {
    lhs.x == rhs.x && lhs.y == rhs.y
  }

  function VecNotEqual(lhs: Vec2, rhs: Vec2): (ne: bool)
    ensures ne <==> lhs != rhs
  {
    !VecEqual(lhs, rhs)
  }

  /** `SizeT::operator==` compares (width, height); `!=` negates it. */
  function SizeEqual(lhs: Size, rhs: Size): (eq: bool)
    ensures eq <==> lhs == rhs
  {
    lhs.width == rhs.width && lhs.height == rhs.height
  }

  function SizeNotEqual(lhs: Size, rhs: Size): (ne: bool)
    ensures ne <==> lhs != rhs
  {
    !SizeEqual(lhs, rhs)
  }

  /** `operator==` on rectangles compares (topLeft, size) with the member
      comparisons above; `!=` negates it. */
  function RectEqual(lhs: Rect, rhs: Rect): (eq: bool)
    ensures eq <==> lhs == rhs
  {
    VecEqual(lhs.topLeft, rhs.topLeft) && SizeEqual(lhs.size, rhs.size)
  }

  function RectNotEqual(lhs: Rect, rhs: Rect): (ne: bool)
    ensures ne <==> lhs != rhs
  {
    !RectEqual(lhs, rhs)
  }

  /** `asVec`: the size read as a point; `asSize` reads it back. */
  function AsVec(size: Size): (v: Vec2)
    ensures AsSize(v) == size
  {
    Vec2(size.width, size.height)
  }

  function AsSize(vec: Vec2): (s: Size)
  {
    Size(vec.x, vec.y)
  }

  /** `asVec` and `asSize` are inverse to each other. */
  lemma AsVecAsSizeInverse(size: Size, vec: Vec2)
    ensures AsSize(AsVec(size)) == size
    ensures AsVec(AsSize(vec)) == vec
  {
  }

  // ---------------------------------------------------------------------
  // Rectangles

  /** `top()`: the first row; every covered cell lies on or below it, and a
      non-empty rectangle covers a cell on it. */
  function Top(r: Rect): (t: int)
    ensures forall p | Covers(r, p) :: t <= p.y
    ensures r.size.width >= 1 && r.size.height >= 1 ==> Covers(r, Vec2(r.topLeft.x, t))
  {
    r.topLeft.y
  }

  /** `left()`: the first column; every covered cell lies on or right of it,
      and a non-empty rectangle covers a cell on it. */
  function Left(r: Rect): (l: int)
    ensures forall p | Covers(r, p) :: l <= p.x
    ensures r.size.width >= 1 && r.size.height >= 1 ==> Covers(r, Vec2(l, r.topLeft.y))
  {
    r.topLeft.x
  }

  /** `bottomLeft()`: the last row is `height - 1` rows below the top. */
  function BottomLeft(r: Rect): (p: Vec2)
    ensures p.x == Left(r) && p.y - Top(r) == r.size.height - 1
  {
    Vec2(r.topLeft.x, r.topLeft.y + (r.size.height - 1))
  }

  /** `bottomRight()`: `bottomLeft()` moved `width - 1` columns right. */
  function BottomRight(r: Rect): (p: Vec2)
    ensures p.y == BottomLeft(r).y && p.x - Left(r) == r.size.width - 1
  {
    AddVec(BottomLeft(r), Vec2(r.size.width - 1, 0))
  }

  /** `bottom()`: the last row; every covered cell lies on or above it, and
      a non-empty rectangle covers a cell on it. */
  function Bottom(r: Rect): (b: int)
    ensures forall p | Covers(r, p) :: p.y <= b
    ensures r.size.width >= 1 && r.size.height >= 1 ==> Covers(r, Vec2(r.topLeft.x, b))
  {
    BottomLeft(r).y
  }

  /** `right()`: the last column; every covered cell lies on or left of it,
      and a non-empty rectangle covers a cell on it. */
  function Right(r: Rect): (x: int)
    ensures forall p | Covers(r, p) :: p.x <= x
    ensures r.size.width >= 1 && r.size.height >= 1 ==> Covers(r, Vec2(x, r.topLeft.y))
  {
    BottomRight(r).x
  }

  /** Corners are inclusive: a w x h rectangle spans columns `Left` to
      `Left + w - 1` and rows `Top` to `Top + h - 1`. */
  lemma InclusiveCorners(r: Rect)
    ensures Top(r) == r.topLeft.y && Left(r) == r.topLeft.x
    ensures BottomLeft(r) == Vec2(Left(r), Bottom(r))
    ensures Right(r) == r.topLeft.x + r.size.width - 1
    ensures Bottom(r) == r.topLeft.y + r.size.height - 1
    ensures BottomRight(r) == Vec2(Right(r), Bottom(r))
  {
  }

  /** `intersects`: the closed column and row ranges overlap. */
  function Intersects(a: Rect, b: Rect): (r: bool)
    ensures a.size.width >= 1 && a.size.height >= 1 && b.size.width >= 1 && b.size.height >= 1 ==>
      (r <==> exists p :: Covers(a, p) && Covers(b, p))
  {
    var p := Vec2(Max(a.topLeft.x, b.topLeft.x), Max(a.topLeft.y, b.topLeft.y));
    var overlap := Left(a) <= Right(b) && Right(a) >= Left(b) && Top(a) <= Bottom(b) && Bottom(a) >= Top(b);
    assert overlap && a.size.width >= 1 && a.size.height >= 1 && b.size.width >= 1 && b.size.height >= 1 ==>
      Covers(a, p) && Covers(b, p);
    overlap
  }

  /** The cells of a rectangle, independent of the corner functions. */
  ghost predicate Covers(r: Rect, p: Vec2)
  {
    r.topLeft.x <= p.x < r.topLeft.x + r.size.width
    && r.topLeft.y <= p.y < r.topLeft.y + r.size.height
  }

  /** With an empty rectangle, `intersects` can hold although no cell is
      shared: a zero-width rectangle whose column lies inside the other's. */
  lemma {:induction false} IntersectsWithoutSharedCell()
    ensures var a, b := Rect(Vec2(0, 0), Size(0, 1)), Rect(Vec2(-5, 0), Size(10, 1));
      Intersects(a, b) && !exists p :: Covers(a, p) && Covers(b, p)
  {
  }

  function Max(a: int, b: int): (m: int)
  {
    if a >= b then a else b
  }

  /** Intersection is symmetric, and every rectangle of at least one cell
      intersects itself. */
  lemma IntersectsSymmetric(a: Rect, b: Rect)
    ensures Intersects(a, b) == Intersects(b, a)
    ensures a.size.width >= 1 && a.size.height >= 1 ==> Intersects(a, a)
  {
  }

  /** The cases the rectangle test checks, all against {{4, 5}, {3, 6}}. */
  lemma IntersectsExamples()
    ensures var rect := Rect(Vec2(4, 5), Size(3, 6));
      && Intersects(rect, Rect(Vec2(4, 6), Size(1, 1)))
      && Intersects(rect, Rect(Vec2(3, 6), Size(3, 1)))
      && Intersects(rect, Rect(Vec2(5, 7), Size(8, 10)))
      && Intersects(rect, Rect(Vec2(6, 10), Size(2, 2)))
      && !Intersects(rect, Rect(Vec2(3, 5), Size(1, 2)))
      && !Intersects(rect, Rect(Vec2(7, 2), Size(1, 2)))
      && !Intersects(rect, Rect(Vec2(4, 4), Size(3, 1)))
      && !Intersects(rect, Rect(Vec2(4, 11), Size(3, 1)))
  {
  }

  /** `rect + translation`: the same size, moved. */
  function Translate(rect: Rect, translation: Vec2): (r: Rect)
    ensures r.size == rect.size
    ensures SubVec(r.topLeft, rect.topLeft) == translation
  {
    Rect(AddVec(rect.topLeft, Vec2(translation.x, translation.y)), rect.size)
  }

  /** Moving both rectangles by the same amount keeps their intersection
      status. */
  lemma TranslatePreservesIntersects(a: Rect, b: Rect, v: Vec2)
    ensures Intersects(Translate(a, v), Translate(b, v)) == Intersects(a, b)
  {
  }

  /** `makeRect(topLeft, bottomRight)`: the size is the difference of the
      two points, so the second point lies one cell past the rectangle's
      inclusive bottom-right corner. */
  function MakeRect(topLeft: Vec2, bottomRight: Vec2): (r: Rect)
    ensures r.topLeft == topLeft
    ensures BottomRight(r) == SubVec(bottomRight, Vec2(1, 1))
    ensures AsVec(r.size) == SubVec(bottomRight, topLeft)
  {
    var sizeAsPoint := SubVec(bottomRight, topLeft);
    Rect(topLeft, Size(sizeAsPoint.x, sizeAsPoint.y))
  }
}

=== FILE: strings.dfy ===
/** `rigel::strings`: helpers over byte strings (`std::string`). */
module Strings {

  /** A C++ `char`: one byte, read here as its unsigned value. */
  type CChar = c: char | c as int < 0x100 witness ' '
  type CString = seq<CChar>

  /** The characters a `const char*` argument denotes: those before its
      terminating NUL, so never a NUL itself. */
  type CStr = s: CString | '\0' !in s witness []

  /** The `what` set every trim overload uses when none is given. */
  const DefaultTrimSet: CStr := "\n\r\t "

  /** A position returned by the `find_*` family, or `npos`. */
  datatype Pos = Index(i: nat) | NPos

  // ---------------------------------------------------------------------
  // split

  /** The number of occurrences of `c` in `s`. */
  function Count(s: CString, c: CChar): (n: nat)
  {
    multiset(s)[c]
  }

  /** The inverse of splitting: the pieces with `d` between neighbours. */
  function Join(pieces: seq<CString>, d: CChar): (r: CString)
  {
    if |pieces| == 0 then []
    else if |pieces| == 1 then pieces[0]
    else pieces[0] + [d] + Join(pieces[1..], d)
  }

  /** `std::find`: the first index holding `c`, or `|s|` (the end iterator). */
  function Find(s: CString, c: CChar): (i: nat)
    ensures i <= |s|
    ensures i < |s| ==> s[i] == c
    ensures c !in s[..i]
  {
    if |s| == 0 then 0
    else if s[0] == c then 0
    else
      var i := 1 + Find(s[1..], c);
      assert s[..i] == [s[0]] + s[1..][..i - 1];
      i
  }

  /** `split`: the maximal `d`-free runs of the input, in order. The C++
      `split` asserts that the delimiter is an ASCII character below 127. */
  function Split(input: CString, d: CChar): (pieces: seq<CString>)
    requires d as int < 127
    ensures |pieces| == Count(input, d) + 1
    ensures forall k | 0 <= k < |pieces| :: d !in pieces[k]
    ensures Join(pieces, d) == input
    decreases |input|
  {
    var next := Find(input, d);
    if next == |input| then
      assert input[..next] == input;
      [input]
    else
      var rest := Split(input[next + 1..], d);
      assert input == input[..next] + [d] + input[next + 1..];
      [input[..next]] + rest
  }

  lemma SplitEmpty(d: CChar)
    requires d as int < 127
    ensures Split([], d) == [[]]
  {
  }

  // ---------------------------------------------------------------------
  // startsWith

  /** `startsWith`: `std::equal` over the prefix after a length check. */
  function StartsWith(input: CString, prefix: CString): (r: bool)
    ensures r <==> |prefix| <= |input| && input[..|prefix|] == prefix
  {
    |input| >= |prefix| && forall i | 0 <= i < |prefix| :: prefix[i] == input[i]
  }

  lemma {:induction false} StartsWithConcat(prefix: CString, rest: CString)
    ensures StartsWith(prefix + rest, prefix)
    ensures StartsWith(prefix + rest, [])
  {
    assert (prefix + rest)[..|prefix|] == prefix;
  }

  // ---------------------------------------------------------------------
  // trim family

  /** `find_first_not_of`: the first index whose character is not in
      `what`, or `npos`. */
  function FindFirstNotOf(s: CString, what: CStr): (p: Pos)
    ensures p.Index? ==> p.i < |s| && s[p.i] !in what
    ensures forall j | 0 <= j < (if p.Index? then p.i else |s|) :: s[j] in what
  {
    if |s| == 0 then NPos
    else if s[0] !in what then Index(0)
    else match FindFirstNotOf(s[1..], what)
      case Index(i) => Index(i + 1)
      case NPos => NPos
  }

  /** `find_last_not_of`: the last index whose character is not in `what`,
      or `npos`. */
  function FindLastNotOf(s: CString, what: CStr): (p: Pos)
    ensures p.Index? ==> p.i < |s| && s[p.i] !in what
    ensures forall j | (if p.Index? then p.i + 1 else 0) <= j < |s| :: s[j] in what
  {
    if |s| == 0 then NPos
    else if s[|s| - 1] !in what then Index(|s| - 1)
    else FindLastNotOf(s[..|s| - 1], what)
  }

  /** `trimLeft`: `erase(0, find_first_not_of(what))`; erasing `npos`
      characters clears the string. */
  function TrimLeft(input: CString, what: CStr := DefaultTrimSet): (r: CString)
    ensures |r| <= |input| && r == input[|input| - |r|..]
    ensures r == [] || r[0] !in what
    ensures forall j | 0 <= j < |input| - |r| :: input[j] in what
  {
    match FindFirstNotOf(input, what)
    case Index(i) => input[i..]
    case NPos => []
  }

  /** `trimRight`: `erase(find_last_not_of(what) + 1)`; for `npos` the
      unsigned sum wraps to 0 and the string is cleared. */
  function TrimRight(input: CString, what: CStr := DefaultTrimSet): (r: CString)
    ensures |r| <= |input| && r == input[..|r|]
    ensures r == [] || r[|r| - 1] !in what
    ensures forall j | |r| <= j < |input| :: input[j] in what
  {
    match FindLastNotOf(input, what)
    case Index(i) => input[..i + 1]
    case NPos => input[..0]
  }

  /** `trim`: `trimLeft(trimRight(input, what), what)`. */
  function Trim(input: CString, what: CStr := DefaultTrimSet): (r: CString)
    ensures r == [] || (r[0] !in what && r[|r| - 1] !in what)
    ensures exists a, b | 0 <= a <= b <= |input| ::
      && r == input[a..b]
      && (forall j | 0 <= j < a :: input[j] in what)
      && (forall j | b <= j < |input| :: input[j] in what)
  {
    var right := TrimRight(input, what);
    var r := TrimLeft(right, what);
    var a, b := |right| - |r|, |right|;
    assert r == input[a..b];
    assert forall j | 0 <= j < a :: right[j] == input[j];
    r
  }

  /** An input made only of `what` characters trims to nothing, on either
      side. */
  lemma {:induction false} TrimAllWhat(input: CString, what: CStr)
    requires forall j | 0 <= j < |input| :: input[j] in what
    ensures TrimLeft(input, what) == [] && TrimRight(input, what) == [] && Trim(input, what) == []
  {
  }

  /** Trimming a string that already starts and ends outside `what` leaves
      it alone. */
  lemma {:induction false} TrimmedIsFixed(s: CString, what: CStr)
    requires s == [] || (s[0] !in what && s[|s| - 1] !in what)
    ensures TrimLeft(s, what) == s && TrimRight(s, what) == s
  {
    var l := TrimLeft(s, what);
    if |l| < |s| {
      assert s[0] in what;
    }
  }

  /** Trimming twice gives the same result as trimming once. */
  lemma {:induction false} TrimIdempotent(input: CString, what: CStr)
    ensures Trim(Trim(input, what), what) == Trim(input, what)
  {
    var t := Trim(input, what);
    TrimmedIsFixed(t, what);
  }

  /** `trimLeft` keeps exactly the suffix from the first character
      outside `what`. */
  lemma {:induction false} TrimLeftAt(s: CString, what: CStr, k: nat)
    requires k <= |s| && (k == |s| || s[k] !in what)
    requires forall j | 0 <= j < k :: s[j] in what
    ensures TrimLeft(s, what) == s[k..]
  {
  }

  /** `trimRight` keeps exactly the prefix up to the last character outside
      `what`. */
  lemma {:induction false} TrimRightAt(s: CString, what: CStr, e: nat)
    requires e <= |s| && (e == 0 || s[e - 1] !in what)
    requires forall j | e <= j < |s| :: s[j] in what
    ensures TrimRight(s, what) == s[..e]
  {
  }

  /** Trimming the left of an already right-trimmed input keeps the slice
      from `first` to `end`. */
  lemma {:induction false} TrimLeftOfSlice(input: CString, what: CStr, first: nat, end: nat)
    requires first < end <= |input| && input[first] !in what
    requires forall j | 0 <= j < first :: input[j] in what
    ensures TrimLeft(input[..end], what) == input[first..end]
  {
    var right := input[..end];
    forall j | 0 <= j < first ensures right[j] in what {
      assert right[j] == input[j];
    }
    TrimLeftAt(right, what, first);
    assert right[first..] == input[first..end];
  }

  /** Trimming the right of an already left-trimmed input keeps the slice
      from `first` to `end`. */
  lemma {:induction false} TrimRightOfSlice(input: CString, what: CStr, first: nat, end: nat)
    requires first < end <= |input| && input[end - 1] !in what
    requires forall j | end <= j < |input| :: input[j] in what
    ensures TrimRight(input[first..], what) == input[first..end]
  {
    var left := input[first..];
    forall j | end - first <= j < |left| ensures left[j] in what {
      assert left[j] == input[first + j];
    }
    assert left[end - first - 1] == input[end - 1];
    TrimRightAt(left, what, end - first);
    assert left[..end - first] == input[first..end];
  }

  /** The order of the two one-sided trims does not matter: both orders
      keep the slice from the first to the last character outside `what`. */
  lemma {:induction false} TrimSidesCommute(input: CString, what: CStr)
    ensures TrimLeft(TrimRight(input, what), what) == TrimRight(TrimLeft(input, what), what)
  {
    var left := TrimLeft(input, what);
    var right := TrimRight(input, what);
    if left == [] {
      TrimAllWhat(input, what);
    } else {
      var first := |input| - |left|;
      var end := |right|;
      assert left[0] == input[first];
      assert first < end;
      assert right == input[..end];
      assert left == input[first..];
      TrimLeftOfSlice(input, what, first, end);
      TrimRightOfSlice(input, what, first, end);
    }
  }

  // ---------------------------------------------------------------------
  // case mapping (ASCII, as in the "C" locale)

  predicate IsLower(c: CChar)
  {
    'a' <= c <= 'z'
  }

  predicate IsUpper(c: CChar)
  {
    'A' <= c <= 'Z'
  }

  /** `std::toupper` in the "C" locale. */
  function UpperChar(c: CChar): (u: CChar)
  {
    if IsLower(c) then (c as int - 32) as char else c
  }

  /** `std::tolower` in the "C" locale. */
  function LowerChar(c: CChar): (l: CChar)
  {
    if IsUpper(c) then (c as int + 32) as char else c
  }

  /** `toUppercase`: the input with every lower-case letter raised. */
  function ToUppercase(input: CString): (r: CString)
    ensures |r| == |input|
    ensures forall i | 0 <= i < |r| :: !IsLower(r[i])
    ensures forall i | 0 <= i < |r| :: IsLower(input[i]) ==> r[i] as int == input[i] as int - 32
    ensures forall i | 0 <= i < |r| :: !IsLower(input[i]) ==> r[i] == input[i]
  {
    seq(|input|, i requires 0 <= i < |input| => UpperChar(input[i]))
  }

  /** `toLowercase`: the input with every upper-case letter lowered. */
  function ToLowercase(input: CString): (r: CString)
    ensures |r| == |input|
    ensures forall i | 0 <= i < |r| :: !IsUpper(r[i])
    ensures forall i | 0 <= i < |r| :: IsUpper(input[i]) ==> r[i] as int == input[i] as int + 32
    ensures forall i | 0 <= i < |r| :: !IsUpper(input[i]) ==> r[i] == input[i]
  {
    seq(|input|, i requires 0 <= i < |input| => LowerChar(input[i]))
  }

  /** Case mapping only looks at letters: lowering an upper-cased string is
      the same as lowering the original, and upper-casing is idempotent. */
  lemma {:induction false} CaseMappingRoundTrip(input: CString)
    ensures ToLowercase(ToUppercase(input)) == ToLowercase(input)
    ensures ToUppercase(ToUppercase(input)) == ToUppercase(input)
  {
  }

  // ---------------------------------------------------------------------
  // UTF-8 (continuation bytes are 10xxxxxx, section 3 of RFC 3629)

  /** `(ch & 0xC0) == 0x80` */
  predicate IsContinuation(c: CChar)
  {
    ((c as int) as bv8) & 0xC0 == 0x80
  }

  /** The bit test selects exactly the bytes 0x80 to 0xBF. */
  lemma ContinuationRange(c: CChar)
    ensures IsContinuation(c) <==> 0x80 <= c as int <= 0xBF
  {
  }

  /** `utf8len`: the number of bytes that are not continuation bytes. */
  function Utf8Len(input: CString): (n: nat)
    ensures n <= |input|
  {
    if |input| == 0 then 0
    else (if IsContinuation(input[0]) then 0 else 1) + Utf8Len(input[1..])
  }

  lemma {:induction false} Utf8LenAppend(s: CString, t: CString)
    ensures Utf8Len(s + t) == Utf8Len(s) + Utf8Len(t)
    decreases |s|
  {
    if |s| == 0 {
      assert s + t == t;
    } else {
      assert (s + t)[1..] == s[1..] + t;
      Utf8LenAppend(s[1..], t);
    }
  }

  /** Pure ASCII text has one code point per byte. */
  lemma {:induction false} Utf8LenAscii(input: CString)
    requires forall i | 0 <= i < |input| :: input[i] as int < 0x80
    ensures Utf8Len(input) == |input|
    decreases |input|
  {
    if |input| > 0 {
      ContinuationRange(input[0]);
      Utf8LenAscii(input[1..]);
    }
  }

  function Min(a: nat, b: nat): (m: nat)
  {
    if a <= b then a else b
  }

  /** Skipping the continuation bytes after `start` adds no code point. */
  method SkipContinuation(input: CString, start: nat) returns (i: nat)
    requires start < |input|
    ensures start < i <= |input|
    ensures i == |input| || !IsContinuation(input[i])
    ensures Utf8Len(input[start + 1..i]) == 0
  {
    i := start + 1;
    while i < |input| && IsContinuation(input[i])
      invariant start < i <= |input|
      invariant Utf8Len(input[start + 1..i]) == 0
    {
      Utf8LenAppend(input[start + 1..i], [input[i]]);
      assert input[start + 1..i + 1] == input[start + 1..i] + [input[i]];
      i := i + 1;
    }
  }

  /** A lead byte followed by its continuation bytes counts as one code
      point. */
  lemma {:induction false} CountCodePoint(input: CString, start: nat, i: nat)
    requires 0 < start < i <= |input|
    requires !IsContinuation(input[start])
    requires Utf8Len(input[start + 1..i]) == 0
    ensures Utf8Len(input[1..i]) == Utf8Len(input[1..start]) + 1
  {
    assert input[1..i] == (input[1..start] + [input[start]]) + input[start + 1..i];
    Utf8LenAppend(input[1..start] + [input[start]], input[start + 1..i]);
    Utf8LenAppend(input[1..start], [input[start]]);
  }

  /** The count of a prefix never exceeds the count of the whole, and with
      the first byte put back it is the count of the whole prefix. */
  lemma {:induction false} PrefixCount(input: CString, i: nat)
    requires 1 <= i <= |input|
    ensures Utf8Len(input[1..i]) <= Utf8Len(input[1..])
    ensures !IsContinuation(input[0]) ==> Utf8Len(input[..i]) == 1 + Utf8Len(input[1..i])
    ensures !IsContinuation(input[0]) ==> Utf8Len(input) == 1 + Utf8Len(input[1..])
  {
    assert input[1..] == input[1..i] + input[i..];
    Utf8LenAppend(input[1..i], input[i..]);
    assert input[..i][1..] == input[1..i];
  }

  /** `utf8lenToBytes`: the byte length of the first `utf8len` code
      points. The first byte always starts a code point; every further code
      point starts at a non-continuation byte. */
  method Utf8LenToBytes(input: CString, utf8len: nat) returns (i: nat)
    ensures utf8len == 0 || |input| == 0 ==> i == 0
    ensures utf8len > 0 && |input| > 0 ==>
      && 1 <= i <= |input|
      && (i == |input| || !IsContinuation(input[i]))
      && 1 + Utf8Len(input[1..i]) == Min(utf8len, 1 + Utf8Len(input[1..]))
    ensures utf8len > 0 && |input| > 0 && !IsContinuation(input[0]) ==>
      Utf8Len(input[..i]) == Min(utf8len, Utf8Len(input))
  {
    var len := |input|;
    if utf8len < 1 || len < 1 {
      return 0;
    }
    i := 0;
    var left := utf8len;
    // `utf8lenToBytes`'s do-while: the first pass runs unconditionally
    while i == 0 || (i < len && left > 0)
      invariant i <= len
      invariant i == 0 ==> left == utf8len
      invariant i > 0 ==> i == len || !IsContinuation(input[i])
      invariant i > 0 ==> 1 + Utf8Len(input[1..i]) + left == utf8len
      decreases len - i, left
    {
      var start := i;
      i := SkipContinuation(input, start);
      if start > 0 {
        CountCodePoint(input, start, i);
      }
      left := left - 1;
    }
    PrefixCount(input, i);
    if i == len {
      assert input[1..i] == input[1..];
    }
  }
}
